=== FILE: README.md ===
# marlin renderer core in Dafny

This project models the pure logic of the marlin 2D renderer (Rust, on wgpu):

- **Shape tessellator** (`src/entities.rs`, module `Entities`). A `ShapeKind`
  (triangle, rectangle or circle with a radius) declares how many control
  vertices it needs. `from_shape` checks the count and fails with
  `VertexUnderspecification` or `VertexOverspecification`. On success it
  expands the vertices into a flat triangle list:
  - a triangle passes through unchanged;
  - a rectangle becomes the triangles (0, 1, 2) and (2, 3, 0);
  - a circle becomes a reversed fan of 1080 vertices around its centre.

  Building an entity divides every x by the viewport width and every y by
  the viewport height. `num_vertices` reports the count as a `u32`.
- **Colour value** (`src/colors.rs`, module `Colors`). Four channels limited
  to 0..255. `with_alpha` rejects the first out-of-range argument. `new`
  defaults alpha to 255. `as_slice` reads the channels back. `mix` averages
  colours channel by channel, using `u32` accumulators and truncating
  division.
- **Point order** (`src/entity.rs`, module `PointEntities`).
  `point_order_from_points` produces the index list `0, 1, …, n-1`
  (each index cast to `u32`). `from_points` pairs the points with that list.

Module `Prims` holds Rust's `Option`/`Result` and the `u32` cast.

Floating point is kept abstract.
- Positions and colour fractions are `real`s with exact arithmetic.
- The `f32` cosine and sine of `i` degrees are parameters, bundled in
  `Entities.Trig`. The circle is therefore verified for its structure only:
  its length, the positions of the centre, the duplicated rim vertices, the
  reversal and the closing seam. Its geometry is not verified.
- The colour conversions are modelled on exact reals. `in_percentages`
  divides each channel by 255. `From<[f32; 3]> for Color` multiplies by 255,
  applies Rust's saturating `as u32` cast, and passes the result to `new`.

Facts about the code that the model reflects:
- The circle loop `for i in 1..360` runs 359 steps, so a circle has
  2 + 3·359 + 1 = 1080 vertices.
- `with_alpha` panics on a channel above 255. Here that panic is a
  `ChannelOutOfBounds` error result naming the offending channel and value.
- `.into()` from `[f32; 3]` to `Color` panics, through `new`, when a
  fraction is 256/255 or more. The circle converts its centre's colour this
  way, and `normalize_coordinates` converts every vertex's colour. These
  panics are error results too: `ColorPanic` from `from_shape`, and the
  first failing vertex's `ChannelOutOfBounds` from normalization.
- Normalization is applied to the whole tessellated list inside
  `Entity::new`, not to the control vertices.

## Model

| member | source | states |
|---|---|---|
| `Entities.RequisitePoints` | src/entities.rs:245-251 | a triangle needs 3 control vertices, a rectangle 4, a circle 1 whatever its radius |
| `Entities.ValidVertexNumber` | src/entities.rs:171-177 | no error exactly when the count equals the requirement; `VertexUnderspecification(kind)` exactly when it is lower, `VertexOverspecification(kind)` exactly when higher, carrying the same kind |
| `Entities.NewVertexConvertsBack` | src/entities.rs:17-22 | a colour that `Vertex::new` (modelled by `NewVertex`) stores from an in-range `Color` always converts back, giving the same red, green and blue with alpha 255 |
| `Entities.FromShape` | src/entities.rs:179-228 | fails exactly when the vertex count is wrong, with the error `valid_vertex_number` reports, or when the shape is a circle whose centre colour does not convert into a `Color`, with that conversion's error; on success a triangle is passed through, a rectangle becomes `[v0,v1,v2,v2,v3,v0]`, and a circle becomes the 360-triangle fan around `vertices[0]` (so no index is out of range) |
| `Entities.AngleZeroRim` | src/entities.rs:195-200 | the vertex pushed first and last, written as `center.x + radius` without trigonometry, is the loop's rim formula at 0 degrees whenever cosine and sine are exact there |
| `Entities.FanSteps` | src/entities.rs:202-217 | the loop body for steps 1..n pushes 3n vertices; the last step's three are its rim vertex twice and then the centre |
| `Entities.FanStepsLayout` | src/entities.rs:202-217 | for every step `i` in 1..n, positions `3i-3` and `3i-2` hold that step's rim vertex and position `3i-1` the centre |
| `Entities.CircleOutline` | src/entities.rs:195-223 | the push order has 1080 vertices; it opens with the angle-zero rim vertex and the centre, then step 1's rim vertex twice, and closes with the centre and the angle-zero rim vertex again |
| `Entities.Reverse` | src/entities.rs:224 | the reversed list has the same length and holds element `|s|-1-i` of the input at position `i` |
| `Entities.CircleOutlineReversed` | src/entities.rs:191-224 | the push order of the circle loop, reversed, is a list of 1080 vertices in which triangle `k` runs from the rim at `360-k` degrees, through the centre, to the rim at `359-k` degrees |
| `Entities.CircleFan` | src/entities.rs:191-225 | the circle's triangle list is that 360-triangle fan |
| `Entities.RectangleSplit` | src/entities.rs:185-190 | a rectangle's list has 6 vertices: the first triangle is the first three corners, the two triangles share the diagonal from vertex 2 to vertex 0, and the list uses exactly the four corners |
| `Entities.CircleSeam` | src/entities.rs:195-224 | a circle's list has 1080 vertices, and its first and last vertices are both the angle-zero rim vertex `(center.x + radius, center.y, 0)` |
| `Entities.FanCentreAndRim` | src/entities.rs:195-224 | in any list that is the 360-triangle circle fan, every position `j` with `j % 3 == 1` holds the centre and every other position a rim vertex at z = 0 in the rim colour |
| `Entities.CircleCentreAndRim` | src/entities.rs:195-223 | the centre sits at every position `j` with `j % 3 == 1` (360 times: once per step and once at the seam); every other vertex is a rim vertex with z = 0 whose colour is the centre's colour converted to a `Color` and back to fractions |
| `Entities.CircleRimDuplicated` | src/entities.rs:202-217 | after the reversal, each step's rim vertex appears twice in a row, ending one triangle and starting the next |
| `Entities.NormalizeCoordinates` | src/entities.rs:134-145 | succeeds exactly when every vertex's colour converts; then length is preserved, each output x times the width gives back the input x, likewise for y and the height, z is unchanged, and the colour is the input's converted to a `Color` and back |
| `Entities.NormalizeFailsAtFirstBadColor` | src/entities.rs:134-145 | a failed normalization reports the conversion error of the first vertex whose colour does not convert, all earlier vertices converting |
| `Entities.NormalizeUnitIdempotent` | src/entities.rs:134-145 | with a 1 by 1 viewport, normalizing an already normalized list returns it unchanged |
| `Entities.NewEntity` | src/entities.rs:69-71 | succeeds exactly when every colour converts; the entity then holds one vertex per given vertex, scaling a stored vertex back by the width and height gives the given x and y, and z is unchanged |
| `Entities.Build` | src/entities.rs:230-232 | succeeds exactly when every builder colour converts; it then keeps the builder's vertex count and divides positions by the `u32` viewport size: scaling back by width and height gives the builder's x and y, and z is unchanged |
| `Entities.NumVertices` | src/entities.rs:155-157 | the count cast to `u32`, equal to the vertex count whenever that fits in `u32` |
| `Entities.BuiltVertexCount` | src/entities.rs:179-232 | control vertices of the right number whose colours all convert both tessellate and build; the built vertex count depends only on the shape kind (3, 6 or 1080), is positive, and is a multiple of 3 |
| `Entities.HomeSceneShapes` | src/main.rs:22-29 | the home scene's blue circle of radius 500 at the origin tessellates into 1080 vertices, starting and ending at (500, 0, 0); its white 400 by 100 rectangle button becomes the triangles (0, 1, 2) and (2, 3, 0) |
| `Prims.AsU32` | src/entity.rs:47 | `as u32` keeps every value below 2^32 and otherwise drops a multiple of 2^32 |
| `Colors.PaletteValid` | src/colors.rs:2-5 | the named colours black, white, red and blue are in range and opaque |
| `Colors.WithinBounds` | src/colors.rs:14-16 | a channel value is accepted exactly when it survives truncation to a byte |
| `Colors.WithAlpha` | src/colors.rs:22-38 | succeeds exactly when all four arguments are at most 255, storing `[r, g, b, a]` in order as a valid colour; otherwise reports the first argument, in order r, g, b, a, that is above 255 |
| `Colors.New` | src/colors.rs:18-20 | succeeds exactly when r, g, b are at most 255, and then stores `[r, g, b, 255]`; a failure never blames alpha |
| `Colors.FromRgb` | src/colors.rs:75-83 | converting fractions succeeds exactly when each of red, green and blue times 255 is below 256, giving an in-range opaque colour; a red fraction out of range is the error reported |
| `Colors.FloatToU32` | src/colors.rs:78-80 | `as u32` on a float truncates toward zero, gives 0 for zero or negative input and the largest `u32` for input of 2^32 or more |
| `Colors.InPercentages` | src/colors.rs:44-50 | each fraction times 255 gives back the channel |
| `Colors.PercentagesRoundTrip` | src/colors.rs:75-83 | converting an in-range colour to fractions and back gives the opaque colour with the same red, green and blue |
| `Colors.AsSlice` | src/colors.rs:40-42 | the slice has four entries: the stored red, green, blue and alpha channels |
| `Colors.SliceRoundTrip` | src/colors.rs:22-42 | passing a colour's slice back to `with_alpha` rebuilds that colour exactly when the colour is in range |
| `Colors.ChannelSumPermutation` | src/colors.rs:55-59 | the channel sums that `mix` accumulates do not depend on the order of the colours |
| `Colors.ChannelSumBound` | src/colors.rs:55-59 | a channel of in-range colours sums to at most 255 times their number |
| `Colors.MixedIsTruncatedAverage` | src/colors.rs:52-64 | for a non-empty list of `n` colours, each channel `m` of the mix is the truncated average of that channel's sum: `m·n <= sum < (m+1)·n` |
| `Colors.MixedValid` | src/colors.rs:61-70 | averaging in-range colours gives an in-range colour, so the final `with_alpha` never fails |
| `Colors.MixSingleton` | src/colors.rs:52-71 | mixing a single colour returns it |
| `Colors.MixPermutationInvariant` | src/colors.rs:52-71 | mixing two lists that are permutations of each other gives the same colour |
| `Colors.Accumulate` | src/colors.rs:53-59 | after the accumulation loop each of the four `u32` accumulators holds that channel's sum over all colours, and no addition overflows |
| `Colors.Mix` | src/colors.rs:52-71 | the accumulate-then-divide loop, with `u32` sums that never overflow and the length cast to `u32`, succeeds and returns the channel-wise truncating average |
| `PointEntities.PointOrderFromPoints` | src/entity.rs:44-50 | one `i as u32` per point, in order; with at most 2^32 points, entry `i` is `i`, and the list is strictly increasing (so it has no duplicates) |
| `PointEntities.FromPoints` | src/entity.rs:52-58 | the entity keeps the points unchanged, with an order of the same length whose entry `i` is `i` |

## Left out

- GPU and window plumbing is not modelled because it is foreign library calls: `Vertex::desc`, `Point::desc`, the buffer, shader and pipeline creation in `Entity::new`, and the accessors `vertices`/`pipeline` in `src/entities.rs`; also `State`, `render` and the event loop in `src/marlin.rs`.
- The resize guard in `src/marlin.rs` (update only when both sides are positive) is not modelled because it is tied to surface reconfiguration.
- `to_srgb` in `src/marlin.rs` is not modelled because it is an `f64` power computation outside the colour value and the tessellator.
- `f32` rounding in the colour conversions is not modelled; they are computed on exact reals. For in-range channels this loses nothing: in IEEE binary32 arithmetic with round-to-nearest-even, `((c as f32 / 255.0) * 255.0) as u32 == c` holds for every `c` in 0..255, so `Colors.PercentagesRoundTrip`, `Entities.NewVertexConvertsBack` and `Entities.NormalizeUnitIdempotent` describe the `f32` program as well.
- `Point::new` (src/entity.rs) is not modelled as an operation: it only stores the given x, y and colour with z = 0. `Point` is modelled as a record.
- `Vertex::as_vector`, `From<Vertex> for Vector` and the `Display` implementations are not modelled: they are conversions to an external vector type and message formatting.
- Scene navigation (`MasterWindowState`, `SceneName`, `add_shape`, `add_button`, `next_scene`, `previous_scene`), virtual buttons and the pointer transform are not part of this model: `src/main.rs` imports them from `marlin`, but `src/marlin.rs` does not define them.
- The circle's geometry is not modelled: the claim that every rim vertex lies at distance `radius` from the centre depends on `f32` cosine and sine, which are parameters here.
- `f32` rounding of positions, and the inexact `u32`-to-`f32` conversion of very large viewport sizes, are not modelled. Positions are exact reals.
- Entities.FromShape: the panic of the circle's `center.color.into()` on a fraction of 256/255 or more is modelled as the `ColorPanic` error result rather than as a crash.
- Entities.NormalizeCoordinates: requires a non-zero width and height, because real division by zero is undefined here. The source would produce IEEE infinities or NaN (zero divided by zero) instead. A vertex colour with a fraction of 256/255 or more, which the source's `.into()` panics on, is an error result here; such colours cannot come from `Vertex::new`, but `Vertex`'s fields are public.
- Entities.NewEntity: requires a non-zero width and height, for the same reason.
- Entities.Build: requires a positive `u32` width and height, for the same reason.
- Colors.Mix: requires 0 < length < 2^32 and every channel sum below 2^32. These conditions are sufficient for the source neither to divide by zero (an empty list, or a length the `u32` cast truncates to 0) nor to overflow a `u32` accumulator. The wrapped or panicking behaviour outside them is not modelled.
- Colors.WithAlpha and Colors.New take unbounded naturals rather than `u32`. Every value above 255 is rejected either way.

=== FILE: colors.dfy ===
/** The bounded RGBA colour value of `src/colors.rs`: construction with a
    range check, the alpha default, the channel slice and channel-wise mixing. */
module Colors {
  import opened Prims

  /** Largest value a channel may hold. */
  const MaxChannel: nat := 255

  /** A position in the four-channel array: 0 red, 1 green, 2 blue, 3 alpha. */
  type ChannelIndex = k: nat | k < 4

  /** The four channels the source keeps in a `[u32; 4]`. Channels are not
      bounded by the type; `Valid` is the range invariant construction keeps. */
  datatype Color = Color(r: nat, g: nat, b: nat, a: nat)

  const Black: Color := Color(0, 0, 0, 255)
  const White: Color := Color(255, 255, 255, 255)
  const Red: Color := Color(235, 64, 52, 255)
  const Blue: Color := Color(20, 152, 252, 255)

  /** The named colours are in range. */
  lemma PaletteValid()
    ensures Valid(Black) && Valid(White) && Valid(Red) && Valid(Blue)
    ensures Black.a == White.a == Red.a == Blue.a == MaxChannel
  {
  }

  /** Which argument of `with_alpha` was rejected. */
  datatype ChannelName = R | G | B | A

  /** The panic of `with_alpha`, made a recoverable error: it names the first
      out-of-range argument, in the order the source checks them. */
  datatype ColorError = ChannelOutOfBounds(channel: ChannelName, value: nat)

  /** `rgba_value_within_bounds`: the value survives truncation to a byte. */
  predicate WithinBounds(value: nat)
    ensures WithinBounds(value) <==> value % 0x100 == value
  {
    value <= MaxChannel
  }

  predicate Valid(c: Color) {
    WithinBounds(c.r) && WithinBounds(c.g) && WithinBounds(c.b) && WithinBounds(c.a)
  }

  function Channel(c: Color, k: ChannelIndex): nat {
    if k == 0 then c.r else if k == 1 then c.g else if k == 2 then c.b else c.a
  }

  /** The stored channels, in the order red, green, blue, alpha. */
  function AsSlice(c: Color): (s: seq<nat>)
    ensures |s| == 4
    ensures forall k: ChannelIndex :: s[k] == Channel(c, k)
  {
    [c.r, c.g, c.b, c.a]
  }

  /** Builds a colour from four channels, failing on the first one above 255. */
  function WithAlpha(r: nat, g: nat, b: nat, a: nat): (res: Result<Color, ColorError>)
    ensures res.Ok? <==> r <= MaxChannel && g <= MaxChannel && b <= MaxChannel && a <= MaxChannel
    ensures res.Ok? ==> Valid(res.value) && AsSlice(res.value) == [r, g, b, a]
    ensures r > MaxChannel ==> res == Err(ChannelOutOfBounds(R, r))
    ensures r <= MaxChannel && g > MaxChannel ==> res == Err(ChannelOutOfBounds(G, g))
    ensures r <= MaxChannel && g <= MaxChannel && b > MaxChannel ==> res == Err(ChannelOutOfBounds(B, b))
    ensures r <= MaxChannel && g <= MaxChannel && b <= MaxChannel && a > MaxChannel ==>
      res == Err(ChannelOutOfBounds(A, a))
  {
    if !WithinBounds(r) then Err(ChannelOutOfBounds(R, r))
    else if !WithinBounds(g) then Err(ChannelOutOfBounds(G, g))
    else if !WithinBounds(b) then Err(ChannelOutOfBounds(B, b))
    else if !WithinBounds(a) then Err(ChannelOutOfBounds(A, a))
    else Ok(Color(r, g, b, a))
  }

  /** An opaque colour: alpha defaults to 255. */
  function New(r: nat, g: nat, b: nat): (res: Result<Color, ColorError>)
    ensures res.Ok? <==> r <= MaxChannel && g <= MaxChannel && b <= MaxChannel
    ensures res.Ok? ==> AsSlice(res.value) == [r, g, b, MaxChannel]
    ensures res.Err? ==> res.error.channel != A
  {
    WithAlpha(r, g, b, MaxChannel)
  }

  /** The `[f32; 3]` colour a vertex carries: red, green and blue as fractions
      of 255, modelled as exact reals. */
  datatype Rgb = Rgb(r: real, g: real, b: real)

  /** `in_percentages`: red, green and blue divided by 255; alpha is dropped. */
  function InPercentages(c: Color): (p: Rgb)
    ensures p.r * 255.0 == c.r as real && p.g * 255.0 == c.g as real && p.b * 255.0 == c.b as real
  {
    Rgb(c.r as real / 255.0, c.g as real / 255.0, c.b as real / 255.0)
  }

  /** Rust's `x as u32` on a float: truncation toward zero, saturating at 0
      below and at the largest `u32` above. */
  function FloatToU32(x: real): (n: U32)
    ensures x <= 0.0 ==> n == 0
    ensures 0.0 <= x < U32Modulus as real ==> n as real <= x < n as real + 1.0
    ensures x >= U32Modulus as real ==> n == U32Modulus - 1
  {
    if x <= 0.0 then 0
    else if x >= U32Modulus as real then U32Modulus - 1
    else x.Floor
  }

  /** `From<[f32; 3]> for Color`: each fraction scaled by 255, cast to `u32`
      and passed to `new`, which rejects a channel of 256/255 or more. */
  function FromRgb(c: Rgb): (res: Result<Color, ColorError>)
    ensures res.Ok? <==> c.r * 255.0 < 256.0 && c.g * 255.0 < 256.0 && c.b * 255.0 < 256.0
    ensures res.Ok? ==> Valid(res.value) && res.value.a == MaxChannel
    ensures c.r * 255.0 >= 256.0 ==> res.Err? && res.error.channel == R
  {
    New(FloatToU32(c.r * 255.0), FloatToU32(c.g * 255.0), FloatToU32(c.b * 255.0))
  }

  /** Converting a colour to fractions and back gives the opaque colour with
      the same red, green and blue. In-range channels survive this round trip
      exactly in `f32` as well. */
  lemma PercentagesRoundTrip(c: Color)
    requires Valid(c)
    ensures FromRgb(InPercentages(c)) == Ok(Color(c.r, c.g, c.b, MaxChannel))
  {
  }

  /** Reading the slice back into `with_alpha` rebuilds the colour exactly when
      the colour is in range. */
  lemma SliceRoundTrip(c: Color)
    ensures var s := AsSlice(c); Valid(c) <==> WithAlpha(s[0], s[1], s[2], s[3]) == Ok(c)
  {
  }

  /** Sum of channel `k` over `cs`, accumulated front to back as `mix` does. */
  function ChannelSum(cs: seq<Color>, k: ChannelIndex): nat {
    if |cs| == 0 then 0 else ChannelSum(cs[..|cs| - 1], k) + Channel(cs[|cs| - 1], k)
  }

  lemma {:induction false} ChannelSumAppend(xs: seq<Color>, ys: seq<Color>, k: ChannelIndex)
    ensures ChannelSum(xs + ys, k) == ChannelSum(xs, k) + ChannelSum(ys, k)
    decreases |ys|
  {
    if |ys| == 0 {
      assert xs + ys == xs;
    } else {
      var init := ys[..|ys| - 1];
      assert (xs + ys)[..|xs + ys| - 1] == xs + init;
      ChannelSumAppend(xs, init, k);
    }
  }

  /** A prefix never sums to more than the whole sequence. */
  lemma ChannelSumPrefix(cs: seq<Color>, n: nat, k: ChannelIndex)
    requires n <= |cs|
    ensures ChannelSum(cs[..n], k) <= ChannelSum(cs, k)
  {
    assert cs == cs[..n] + cs[n..];
    ChannelSumAppend(cs[..n], cs[n..], k);
  }

  /** Every channel of in-range colours sums to at most 255 per colour. */
  lemma {:induction false} ChannelSumBound(cs: seq<Color>, k: ChannelIndex)
    requires forall i :: 0 <= i < |cs| ==> Valid(cs[i])
    ensures ChannelSum(cs, k) <= MaxChannel * |cs|
  {
    if |cs| > 0 {
      ChannelSumBound(cs[..|cs| - 1], k);
    }
  }

  /** The channel sums depend only on which colours are present, not their order. */
  lemma {:induction false} ChannelSumPermutation(cs: seq<Color>, ds: seq<Color>, k: ChannelIndex)
    requires multiset(cs) == multiset(ds)
    ensures ChannelSum(cs, k) == ChannelSum(ds, k)
    decreases |cs|
  {
    if |cs| == 0 {
      assert |ds| == |multiset(ds)| == 0;
    } else {
      var init := cs[..|cs| - 1];
      var last := cs[|cs| - 1];
      assert cs == init + [last];
      assert last in multiset(ds);
      var j :| 0 <= j < |ds| && ds[j] == last;
      var rest := ds[..j] + ds[j + 1..];
      assert ds == ds[..j] + [last] + ds[j + 1..];
      assert multiset(ds) == multiset(ds[..j]) + multiset{last} + multiset(ds[j + 1..]);
      assert multiset(cs) == multiset(init) + multiset{last};
      assert multiset(rest) == multiset(ds[..j]) + multiset(ds[j + 1..]);
      assert multiset(init) == multiset(cs) - multiset{last};
      assert multiset(rest) == multiset(ds) - multiset{last};
      ChannelSumPermutation(init, rest, k);
      ChannelSumAppend(ds[..j] + [last], ds[j + 1..], k);
      ChannelSumAppend(ds[..j], [last], k);
      ChannelSumAppend(ds[..j], ds[j + 1..], k);
    }
  }

  /** Truncating division: `x / n` brackets `x` between consecutive multiples of `n`. */
  lemma DivBracket(x: nat, n: nat)
    requires n > 0
    ensures (x / n) * n <= x < (x / n + 1) * n
  {
  }

  /** The channel-wise truncating average of a non-empty list of colours:
      the reference definition `mix` is measured against. */
  function Mixed(cs: seq<Color>): Color
    requires |cs| > 0
  {
    var n := |cs|;
    Color(ChannelSum(cs, 0) / n, ChannelSum(cs, 1) / n, ChannelSum(cs, 2) / n, ChannelSum(cs, 3) / n)
  }

  /** Each channel of the mix is the truncated average: the largest `m` with
      `m * n <= sum`. */
  lemma MixedIsTruncatedAverage(cs: seq<Color>)
    requires |cs| > 0
    ensures forall k: ChannelIndex ::
      Channel(Mixed(cs), k) * |cs| <= ChannelSum(cs, k) < (Channel(Mixed(cs), k) + 1) * |cs|
  {
    var m := Mixed(cs);
    forall k: ChannelIndex
      ensures Channel(m, k) * |cs| <= ChannelSum(cs, k) < (Channel(m, k) + 1) * |cs|
    {
      assert Channel(m, k) == ChannelSum(cs, k) / |cs|;
      DivBracket(ChannelSum(cs, k), |cs|);
    }
  }

  /** Averaging in-range colours stays in range, so `mix` never hits the
      `with_alpha` panic. */
  lemma MixedValid(cs: seq<Color>)
    requires |cs| > 0
    requires forall i :: 0 <= i < |cs| ==> Valid(cs[i])
    ensures Valid(Mixed(cs))
  {
    var m := Mixed(cs);
    MixedIsTruncatedAverage(cs);
    forall k: ChannelIndex
      ensures Channel(m, k) <= MaxChannel
    {
      ChannelSumBound(cs, k);
      MulCancel(Channel(m, k), MaxChannel, |cs|);
    }
    assert Channel(m, 0) == m.r && Channel(m, 1) == m.g && Channel(m, 2) == m.b && Channel(m, 3) == m.a;
  }

  lemma MulCancel(x: nat, y: nat, n: nat)
    requires n > 0 && x * n <= y * n
    ensures x <= y
  {
  }

  /** Mixing a single colour gives that colour back. */
  lemma MixSingleton(c: Color)
    ensures Mixed([c]) == c
  {
    assert [c][..0] == [];
    forall k: ChannelIndex
      ensures ChannelSum([c], k) == Channel(c, k)
    {
    }
    assert Channel(c, 0) == c.r && Channel(c, 1) == c.g && Channel(c, 2) == c.b && Channel(c, 3) == c.a;
  }

  /** Mixing does not depend on the order of its input. (The equal lengths
      follow from the equal multisets; they are stated to keep the claim cheap
      to check.) */
  lemma MixPermutationInvariant(cs: seq<Color>, ds: seq<Color>)
    requires 0 < |cs| == |ds|
    requires multiset(cs) == multiset(ds)
    ensures Mixed(cs).r == Mixed(ds).r
    ensures Mixed(cs).g == Mixed(ds).g
    ensures Mixed(cs).b == Mixed(ds).b
    ensures Mixed(cs).a == Mixed(ds).a
  {
    ChannelSumPermutation(cs, ds, 0);
    ChannelSumPermutation(cs, ds, 1);
    ChannelSumPermutation(cs, ds, 2);
    ChannelSumPermutation(cs, ds, 3);
  }

  lemma ChannelSumStep(cs: seq<Color>, i: nat, k: ChannelIndex)
    requires i < |cs|
    ensures ChannelSum(cs[..i + 1], k) == ChannelSum(cs[..i], k) + Channel(cs[i], k)
  {
    assert cs[..i + 1][..i] == cs[..i];
  }

  /** The first loop of `mix`: four `u32` accumulators, each colour's channels
      added in turn. Under the precondition no addition overflows. */
  method Accumulate(cs: seq<Color>) returns (mixing: seq<nat>)
    requires forall k: ChannelIndex :: ChannelSum(cs, k) < U32Modulus
    ensures |mixing| == 4
    ensures forall k: ChannelIndex :: mixing[k] == ChannelSum(cs, k)
  {
    mixing := [0, 0, 0, 0];
    var i := 0;
    while i < |cs|
      invariant 0 <= i <= |cs|
      invariant |mixing| == 4
      invariant forall k: ChannelIndex :: mixing[k] == ChannelSum(cs[..i], k)
    {
      var j := 0;
      while j < 4
        invariant 0 <= j <= 4
        invariant |mixing| == 4
        invariant forall k: ChannelIndex :: k < j ==> mixing[k] == ChannelSum(cs[..i + 1], k)
        invariant forall k: ChannelIndex :: j <= k ==> mixing[k] == ChannelSum(cs[..i], k)
      {
        ChannelSumStep(cs, i, j);
        ChannelSumPrefix(cs, i + 1, j);
        // the u32 accumulator does not overflow
        assert mixing[j] + Channel(cs[i], j) < U32Modulus;
        mixing := mixing[j := mixing[j] + Channel(cs[i], j)];
        j := j + 1;
      }
      i := i + 1;
    }
    assert cs[..i] == cs;
  }

  /** `mix` as the source computes it: the channel sums, each divided by the
      length cast to `u32`, then passed to `with_alpha`. The preconditions are
      sufficient to keep the source from panicking: a length that survives
      the cast as a non-zero divisor and sums that do not overflow `u32`. */
  method Mix(cs: seq<Color>) returns (res: Result<Color, ColorError>)
    requires 0 < |cs| < U32Modulus
    requires forall i :: 0 <= i < |cs| ==> Valid(cs[i])
    requires forall k: ChannelIndex :: ChannelSum(cs, k) < U32Modulus
    ensures res.Ok?
    ensures res.value == Mixed(cs) && Valid(res.value)
  {
    var mixing := Accumulate(cs);
    var divisor := AsU32(|cs|);
    assert divisor == |cs|;
    ghost var m := Mixed(cs);
    var j := 0;
    while j < 4
      invariant 0 <= j <= 4
      invariant |mixing| == 4
      invariant forall k: ChannelIndex :: k < j ==> mixing[k] == Channel(m, k)
      invariant forall k: ChannelIndex :: j <= k ==> mixing[k] == ChannelSum(cs, k)
    {
      assert mixing[j] / divisor == Channel(m, j);
      mixing := mixing[j := mixing[j] / divisor];
      j := j + 1;
    }
    MixedValid(cs);
    assert mixing == AsSlice(m);
    res := WithAlpha(mixing[0], mixing[1], mixing[2], mixing[3]);
  }
}

=== FILE: entities.dfy ===
/** The shape tessellator of `src/entities.rs`: vertex-count validation per
    shape kind, expansion of control vertices into a flat triangle list, and
    the division of positions by the viewport size. GPU buffers and pipelines
    are not modelled; an `Entity` here is only its normalized vertex list. */
module Entities {
  import opened Prims
  import Colors

  /** A position in the source's `f32` coordinates, modelled as exact reals. */
  datatype Position = Position(x: real, y: real, z: real)

  datatype Vertex = Vertex(position: Position, color: Colors.Rgb)

  /** The `f32` trigonometry the circle loop depends on, supplied by the
      caller: `cosDegrees(i)` and `sinDegrees(i)` are the cosine and sine of
      `theta = (i as f32) * (PI / 180.0)`. */
  datatype Trig = Trig(cosDegrees: nat -> real, sinDegrees: nat -> real)

  /** `Vertex::new`: the colour is stored as its fractions of 255. */
  function NewVertex(x: real, y: real, z: real, color: Colors.Color): Vertex {
    Vertex(Position(x, y, z), Colors.InPercentages(color))
  }

  /** A colour stored by `Vertex::new` always converts back into a `Color`
      (so `.into()` on it never panics), and gives back red, green and blue. */
  lemma NewVertexConvertsBack(x: real, y: real, z: real, color: Colors.Color)
    requires Colors.Valid(color)
    ensures Colors.FromRgb(NewVertex(x, y, z, color).color)
      == Ok(Colors.Color(color.r, color.g, color.b, Colors.MaxChannel))
  {
  }

  datatype ShapeKind = Triangle | Rectangle | Circle(radius: real)

  datatype ShapeError =
    | VertexOverspecification(kind: ShapeKind)
    | VertexUnderspecification(kind: ShapeKind)

  /** Why tessellation did not produce a list: the `ShapeError` the source
      returns, or the panic of converting the circle centre's colour. */
  datatype TessellationError =
    | InvalidShape(shapeError: ShapeError)
    | ColorPanic(colorError: Colors.ColorError)

  /** Number of control vertices a shape is described by. */
  function RequisitePoints(kind: ShapeKind): (n: nat)
    ensures kind.Triangle? ==> n == 3
    ensures kind.Rectangle? ==> n == 4
    ensures kind.Circle? ==> n == 1
  {
    match kind
    case Triangle => 3
    case Rectangle => 4
    case Circle(_) => 1
  }

  /** Compares the given vertex count with the one the shape needs; the error
      carries the shape it was raised for. */
  function ValidVertexNumber(kind: ShapeKind, numVertices: nat): (err: Option<ShapeError>)
    ensures err == None <==> numVertices == RequisitePoints(kind)
    ensures err == Some(VertexUnderspecification(kind)) <==> numVertices < RequisitePoints(kind)
    ensures err == Some(VertexOverspecification(kind)) <==> numVertices > RequisitePoints(kind)
  {
    var required := RequisitePoints(kind);
    if numVertices < required then Some(VertexUnderspecification(kind))
    else if numVertices > required then Some(VertexOverspecification(kind))
    else None
  }

  /** A tessellated but not yet normalized vertex list. */
  datatype EntityBuilder = EntityBuilder(vertices: seq<Vertex>)

  /** Angle steps of the circle loop `for i in 1..360`. */
  const CircleSteps: nat := 359

  /** Length of a circle's triangle list: two leading vertices, three per
      angle step and one closing vertex. */
  const CircleVertexCount: nat := 2 + 3 * CircleSteps + 1

  /** The rim vertex computed at step `i` of the circle loop, in the colour
      `rim` the centre's colour converted to. */
  function RimPoint(center: Vertex, radius: real, rim: Colors.Color, trig: Trig, i: nat): Vertex {
    NewVertex(
      center.position.x + radius * trig.cosDegrees(i),
      center.position.y + radius * trig.sinDegrees(i),
      0.0,
      rim)
  }

  /** The rim vertex at angle zero. The source writes it as `center.x + radius`
      directly, without calling cosine or sine; it is the loop's rim formula
      at zero degrees whenever cosine and sine are exact there. */
  function AngleZeroRim(center: Vertex, radius: real, rim: Colors.Color, trig: Trig): (v: Vertex)
    ensures trig.cosDegrees(0) == 1.0 && trig.sinDegrees(0) == 0.0 ==> v == RimPoint(center, radius, rim, trig, 0)
  {
    NewVertex(center.position.x + radius, center.position.y, 0.0, rim)
  }

  /** The rim vertex at a whole number of degrees in 0..360, with both ends
      of the sweep at the exact angle-zero vertex. */
  function RimAt(center: Vertex, radius: real, rim: Colors.Color, trig: Trig, degrees: nat): Vertex {
    if degrees == 0 || degrees == 360 then AngleZeroRim(center, radius, rim, trig)
    else RimPoint(center, radius, rim, trig, degrees)
  }

  /** The vertices the loop body pushes for steps 1..n, in push order. */
  function FanSteps(center: Vertex, radius: real, rim: Colors.Color, trig: Trig, n: nat): (s: seq<Vertex>)
    ensures |s| == 3 * n
    ensures n > 0 ==> s[3 * n - 3] == s[3 * n - 2] == RimPoint(center, radius, rim, trig, n)
    ensures n > 0 ==> s[3 * n - 1] == center
  {
    if n == 0 then []
    else
      var p := RimPoint(center, radius, rim, trig, n);
      FanSteps(center, radius, rim, trig, n - 1) + [p, p, center]
  }

  /** What step `i` (1-based) of the loop pushed: its rim vertex twice, then the centre. */
  predicate FanStep(s: seq<Vertex>, center: Vertex, radius: real, rim: Colors.Color, trig: Trig, i: nat)
    requires 1 <= i && 3 * i <= |s|
  {
    && s[3 * i - 3] == RimPoint(center, radius, rim, trig, i)
    && s[3 * i - 2] == RimPoint(center, radius, rim, trig, i)
    && s[3 * i - 1] == center
  }

  lemma {:induction false} FanStepsLayout(center: Vertex, radius: real, rim: Colors.Color, trig: Trig, n: nat)
    ensures forall i :: 1 <= i <= n ==> FanStep(FanSteps(center, radius, rim, trig, n), center, radius, rim, trig, i)
  {
    if n > 0 {
      var s := FanSteps(center, radius, rim, trig, n);
      var prev := FanSteps(center, radius, rim, trig, n - 1);
      FanStepsLayout(center, radius, rim, trig, n - 1);
      forall i | 1 <= i <= n
        ensures FanStep(s, center, radius, rim, trig, i)
      {
        if i < n {
          assert FanStep(prev, center, radius, rim, trig, i);
        }
      }
    }
  }

  /** The circle's vertex list in push order, before the reversal: the
      angle-zero rim vertex and the centre, the loop's steps, and the
      angle-zero rim vertex again. */
  function CircleOutline(center: Vertex, radius: real, rim: Colors.Color, trig: Trig): (p: seq<Vertex>)
    ensures |p| == CircleVertexCount
    ensures p[0] == p[CircleVertexCount - 1] == AngleZeroRim(center, radius, rim, trig)
    ensures p[1] == center
    ensures p[2] == p[3] == RimPoint(center, radius, rim, trig, 1)
    ensures p[CircleVertexCount - 2] == center
  {
    var zero := AngleZeroRim(center, radius, rim, trig);
    var steps := FanSteps(center, radius, rim, trig, CircleSteps);
    FanStepsLayout(center, radius, rim, trig, CircleSteps);
    assert FanStep(steps, center, radius, rim, trig, 1);
    [zero, center] + steps + [zero]
  }

  /** `into_iter().rev().collect()`. */
  function Reverse<T>(s: seq<T>): (r: seq<T>)
    ensures |r| == |s|
    ensures forall i :: 0 <= i < |s| ==> r[i] == s[|s| - 1 - i]
  {
    if |s| == 0 then [] else Reverse(s[1..]) + [s[0]]
  }

  /** Triangle `k` of a circle's list goes from the rim at `360 - k` degrees,
      through the centre, to the rim at `359 - k` degrees (clockwise in
      degrees, counter-clockwise on screen once y points up). */
  predicate FanTriangle(out: seq<Vertex>, center: Vertex, radius: real, rim: Colors.Color, trig: Trig, k: nat)
    requires k < 360 && 3 * k + 3 <= |out|
  {
    && out[3 * k] == RimAt(center, radius, rim, trig, 360 - k)
    && out[3 * k + 1] == center
    && out[3 * k + 2] == RimAt(center, radius, rim, trig, 359 - k)
  }

  /** The triangle fan the tessellator produces for a circle, stated triangle by triangle. */
  predicate IsCircleFan(out: seq<Vertex>, center: Vertex, radius: real, rim: Colors.Color, trig: Trig) {
    && |out| == CircleVertexCount
    && forall k :: 0 <= k < 360 ==> FanTriangle(out, center, radius, rim, trig, k)
  }

  /** One triangle of the reversed push order, read off the loop's steps. */
  lemma OutlineReversedTriangle(center: Vertex, radius: real, rim: Colors.Color, trig: Trig, k: nat)
    requires k < 360
    ensures FanTriangle(Reverse(CircleOutline(center, radius, rim, trig)), center, radius, rim, trig, k)
  {
    var zero := AngleZeroRim(center, radius, rim, trig);
    var steps := FanSteps(center, radius, rim, trig, CircleSteps);
    var p := CircleOutline(center, radius, rim, trig);
    var out := Reverse(p);
    assert p == [zero, center] + steps + [zero];
    FanStepsLayout(center, radius, rim, trig, CircleSteps);
    assert out[3 * k] == p[1079 - 3 * k];
    assert out[3 * k + 1] == p[1078 - 3 * k];
    assert out[3 * k + 2] == p[1077 - 3 * k];
    if k == 0 {
      assert FanStep(steps, center, radius, rim, trig, 359);
      assert p[1078] == steps[1076] && p[1077] == steps[1075];
    } else if k == 359 {
      assert FanStep(steps, center, radius, rim, trig, 1);
      assert p[2] == steps[0];
    } else {
      assert FanStep(steps, center, radius, rim, trig, 360 - k);
      assert FanStep(steps, center, radius, rim, trig, 359 - k);
      assert p[1079 - 3 * k] == steps[1077 - 3 * k];
      assert p[1078 - 3 * k] == steps[1076 - 3 * k];
      assert p[1077 - 3 * k] == steps[1075 - 3 * k];
    }
  }

  /** The reversed push order of the circle loop is the fan of 360 triangles. */
  lemma CircleOutlineReversed(center: Vertex, radius: real, rim: Colors.Color, trig: Trig)
    ensures IsCircleFan(Reverse(CircleOutline(center, radius, rim, trig)), center, radius, rim, trig)
  {
    forall k | 0 <= k < 360
      ensures FanTriangle(Reverse(CircleOutline(center, radius, rim, trig)), center, radius, rim, trig, k)
    {
      OutlineReversedTriangle(center, radius, rim, trig, k);
    }
  }

  /** The circle's triangle list: the loop's vertices in reverse. */
  function CircleFan(center: Vertex, radius: real, rim: Colors.Color, trig: Trig): (out: seq<Vertex>)
    ensures IsCircleFan(out, center, radius, rim, trig)
  {
    CircleOutlineReversed(center, radius, rim, trig);
    Reverse(CircleOutline(center, radius, rim, trig))
  }

  /** Validates the vertex count, then expands the control vertices into a
      triangle list: a triangle as given, a rectangle as two triangles over
      the diagonal from vertex 2 to vertex 0, a circle as a fan around its
      centre. A circle first converts the centre's colour into a `Color`,
      which panics when a channel is 256/255 or more. */
  function FromShape(kind: ShapeKind, vertices: seq<Vertex>, trig: Trig): (res: Result<EntityBuilder, TessellationError>)
    ensures res.Err? <==>
      || |vertices| != RequisitePoints(kind)
      || (kind.Circle? && Colors.FromRgb(vertices[0].color).Err?)
    ensures |vertices| != RequisitePoints(kind) ==>
      res.Err? && res.error.InvalidShape? && ValidVertexNumber(kind, |vertices|) == Some(res.error.shapeError)
    ensures |vertices| == RequisitePoints(kind) && kind.Circle? && res.Err? ==>
      res.error == ColorPanic(Colors.FromRgb(vertices[0].color).error)
    ensures res.Ok? && kind.Triangle? ==> res.value.vertices == vertices
    ensures res.Ok? && kind.Rectangle? ==>
      res.value.vertices == [vertices[0], vertices[1], vertices[2], vertices[2], vertices[3], vertices[0]]
    ensures res.Ok? && kind.Circle? ==>
      IsCircleFan(res.value.vertices, vertices[0], kind.radius, Colors.FromRgb(vertices[0].color).value, trig)
  {
    match ValidVertexNumber(kind, |vertices|)
    case Some(err) => Err(InvalidShape(err))
    case None =>
      match kind
      case Triangle => Ok(EntityBuilder(vertices))
      case Rectangle =>
        Ok(EntityBuilder([vertices[0], vertices[1], vertices[2], vertices[2], vertices[3], vertices[0]]))
      case Circle(radius) =>
        match Colors.FromRgb(vertices[0].color)
        case Err(e) => Err(ColorPanic(e))
        case Ok(rim) => Ok(EntityBuilder(CircleFan(vertices[0], radius, rim, trig)))
  }

  /** The rectangle's two triangles are (0, 1, 2) and (2, 3, 0): they share the
      diagonal from vertex 2 to vertex 0, and together use exactly the four
      corners. */
  lemma RectangleSplit(vertices: seq<Vertex>, trig: Trig)
    requires |vertices| == 4
    ensures FromShape(Rectangle, vertices, trig).Ok?
    ensures var out := FromShape(Rectangle, vertices, trig).value.vertices;
      && |out| == 6
      && out[..3] == vertices[..3]
      && out[2] == out[3] && out[5] == out[0]
      && out[4] == vertices[3]
      && forall v :: v in out <==> v in vertices
  {
    var out := FromShape(Rectangle, vertices, trig).value.vertices;
    forall v
      ensures v in out <==> v in vertices
    {
      if v in vertices {
        var i :| 0 <= i < 4 && vertices[i] == v;
        assert i == 0 || i == 1 || i == 2 || i == 3;
        if i == 3 { assert out[4] == v; }
      }
    }
  }

  /** The circle list opens and closes on the angle-zero rim vertex
      `(center.x + radius, center.y, 0)`, which closes the seam. */
  lemma CircleSeam(center: Vertex, radius: real, trig: Trig)
    requires Colors.FromRgb(center.color).Ok?
    ensures FromShape(Circle(radius), [center], trig).Ok?
    ensures var out := FromShape(Circle(radius), [center], trig).value.vertices;
      var rim := Colors.FromRgb(center.color).value;
      && |out| == 1080
      && out[0] == out[1079] == AngleZeroRim(center, radius, rim, trig)
      && out[0].position == Position(center.position.x + radius, center.position.y, 0.0)
  {
    var out := FromShape(Circle(radius), [center], trig).value.vertices;
    var rim := Colors.FromRgb(center.color).value;
    assert FanTriangle(out, center, radius, rim, trig, 0);
    assert FanTriangle(out, center, radius, rim, trig, 359);
  }

  /** Every rim vertex, whatever its angle, lies at z = 0 in the rim colour. */
  lemma RimAtOnRim(center: Vertex, radius: real, rim: Colors.Color, trig: Trig, degrees: nat)
    ensures RimAt(center, radius, rim, trig, degrees).position.z == 0.0
    ensures RimAt(center, radius, rim, trig, degrees).color == Colors.InPercentages(rim)
  {
  }

  /** In any circle fan, the centre sits at every position `j` with
      `j % 3 == 1` and every other vertex is a rim vertex. */
  lemma FanCentreAndRim(out: seq<Vertex>, center: Vertex, radius: real, rim: Colors.Color, trig: Trig)
    requires IsCircleFan(out, center, radius, rim, trig)
    ensures forall j :: 0 <= j < |out| ==>
      if j % 3 == 1 then out[j] == center
      else (out[j].position.z == 0.0 && out[j].color == Colors.InPercentages(rim))
  {
    forall j | 0 <= j < |out|
      ensures if j % 3 == 1 then out[j] == center
        else (out[j].position.z == 0.0 && out[j].color == Colors.InPercentages(rim))
    {
      var k := j / 3;
      assert FanTriangle(out, center, radius, rim, trig, k);
      if j % 3 == 0 {
        assert j == 3 * k;
        RimAtOnRim(center, radius, rim, trig, 360 - k);
      } else if j % 3 == 1 {
        assert j == 3 * k + 1;
      } else {
        assert j == 3 * k + 2;
        RimAtOnRim(center, radius, rim, trig, 359 - k);
      }
    }
  }

  /** The centre sits at every position `j` with `j % 3 == 1`: once per angle
      step and once more at the seam, 360 times. Every other vertex is a rim
      vertex at z = 0 whose colour is the centre's, converted to a `Color`
      and back to fractions. */
  lemma CircleCentreAndRim(center: Vertex, radius: real, trig: Trig)
    requires Colors.FromRgb(center.color).Ok?
    ensures var out := FromShape(Circle(radius), [center], trig).value.vertices;
      forall j :: 0 <= j < |out| ==>
        if j % 3 == 1 then out[j] == center
        else (out[j].position.z == 0.0
          && out[j].color == Colors.InPercentages(Colors.FromRgb(center.color).value))
  {
    var out := FromShape(Circle(radius), [center], trig).value.vertices;
    FanCentreAndRim(out, center, radius, Colors.FromRgb(center.color).value, trig);
  }

  /** Each angle step contributes its rim vertex twice in a row: the end of
      one triangle and the start of the next. */
  lemma CircleRimDuplicated(center: Vertex, radius: real, trig: Trig)
    requires Colors.FromRgb(center.color).Ok?
    ensures var out := FromShape(Circle(radius), [center], trig).value.vertices;
      var rim := Colors.FromRgb(center.color).value;
      forall k :: 0 <= k < 359 ==>
        out[3 * k + 2] == out[3 * k + 3] == RimPoint(center, radius, rim, trig, 359 - k)
  {
    var out := FromShape(Circle(radius), [center], trig).value.vertices;
    var rim := Colors.FromRgb(center.color).value;
    forall k | 0 <= k < 359
      ensures out[3 * k + 2] == out[3 * k + 3] == RimPoint(center, radius, rim, trig, 359 - k)
    {
      assert FanTriangle(out, center, radius, rim, trig, k);
      assert FanTriangle(out, center, radius, rim, trig, k + 1);
    }
  }

  /** A vertex whose colour `.into()` accepts: every channel below 256/255. */
  predicate Convertible(v: Vertex) {
    Colors.FromRgb(v.color).Ok?
  }

  /** `out` is `v` divided by the viewport size and rebuilt by `Vertex::new`:
      scaling its x and y back by the width and height gives `v`'s, z is
      kept, and the colour is `v`'s converted to a `Color` and back. */
  predicate NormalizedFrom(out: Vertex, v: Vertex, width: real, height: real)
    requires Convertible(v)
  {
    && out.position.x * width == v.position.x
    && out.position.y * height == v.position.y
    && out.position.z == v.position.z
    && out.color == Colors.InPercentages(Colors.FromRgb(v.color).value)
  }

  /** One vertex divided by the viewport size and rebuilt by `Vertex::new`,
      after its colour is converted into a `Color`. */
  function NormalizeVertex(v: Vertex, width: real, height: real): (res: Result<Vertex, Colors.ColorError>)
    requires width != 0.0 && height != 0.0
    ensures res.Ok? <==> Convertible(v)
    ensures res.Ok? ==> NormalizedFrom(res.value, v, width, height)
    ensures res.Err? ==> Colors.FromRgb(v.color) == Err(res.error)
  {
    match Colors.FromRgb(v.color)
    case Err(e) => Err(e)
    case Ok(c) => Ok(NewVertex(v.position.x / width, v.position.y / height, v.position.z, c))
  }

  /** `normalize_coordinates`: the vertices pushed one by one after division
      of x by the width and y by the height. It stops at the first vertex
      whose colour cannot be converted, where the source panics. */
  function NormalizeCoordinates(vertices: seq<Vertex>, width: real, height: real): (res: Result<seq<Vertex>, Colors.ColorError>)
    requires width != 0.0 && height != 0.0
    ensures res.Ok? <==> forall i :: 0 <= i < |vertices| ==> Convertible(vertices[i])
    ensures res.Ok? ==> |res.value| == |vertices|
    ensures res.Ok? ==> forall i :: 0 <= i < |vertices| ==>
      NormalizedFrom(res.value[i], vertices[i], width, height)
  {
    if |vertices| == 0 then Ok([])
    else
      var init := vertices[..|vertices| - 1];
      match NormalizeCoordinates(init, width, height)
      case Err(e) => Err(e)
      case Ok(done) =>
        match NormalizeVertex(vertices[|vertices| - 1], width, height)
        case Err(e) => Err(e)
        case Ok(v) => Ok(done + [v])
  }

  /** When normalization fails, its error is the conversion error of the
      first vertex whose colour does not convert: the vertex the source's
      loop panics on. */
  lemma {:induction false} NormalizeFailsAtFirstBadColor(vertices: seq<Vertex>, width: real, height: real)
    requires width != 0.0 && height != 0.0
    requires NormalizeCoordinates(vertices, width, height).Err?
    ensures exists i :: (0 <= i < |vertices|
      && Colors.FromRgb(vertices[i].color) == Err(NormalizeCoordinates(vertices, width, height).error)
      && forall j :: 0 <= j < i ==> Convertible(vertices[j]))
  {
    var n := |vertices|;
    var init := vertices[..n - 1];
    var e := NormalizeCoordinates(vertices, width, height).error;
    var i: nat;
    if NormalizeCoordinates(init, width, height).Err? {
      assert NormalizeCoordinates(init, width, height).error == e;
      NormalizeFailsAtFirstBadColor(init, width, height);
      i :| 0 <= i < |init|
        && Colors.FromRgb(init[i].color) == Err(e)
        && forall j :: 0 <= j < i ==> Convertible(init[j]);
    } else {
      assert NormalizeVertex(vertices[n - 1], width, height).error == e;
      i := n - 1;
    }
    forall j | 0 <= j < i
      ensures Convertible(vertices[j])
    {
      assert vertices[j] == init[j];
    }
    assert vertices[i] == if i < n - 1 then init[i] else vertices[n - 1];
    assert Colors.FromRgb(vertices[i].color) == Err(e);
  }

  /** With a unit viewport, normalizing a normalized list changes nothing:
      positions are kept and every colour is already a converted one. */
  lemma NormalizeUnitIdempotent(vertices: seq<Vertex>)
    requires NormalizeCoordinates(vertices, 1.0, 1.0).Ok?
    ensures var once := NormalizeCoordinates(vertices, 1.0, 1.0).value;
      NormalizeCoordinates(once, 1.0, 1.0) == Ok(once)
  {
    var once := NormalizeCoordinates(vertices, 1.0, 1.0).value;
    forall i | 0 <= i < |once|
      ensures Colors.FromRgb(once[i].color) == Ok(Colors.FromRgb(vertices[i].color).value.(a := Colors.MaxChannel))
    {
      Colors.PercentagesRoundTrip(Colors.FromRgb(vertices[i].color).value);
    }
  }

  /** A mesh ready for drawing: its normalized vertices (the GPU buffer and
      pipeline are not modelled). */
  datatype Entity = Entity(vertices: seq<Vertex>)

  /** The geometric part of `Entity::new`. */
  function NewEntity(width: real, height: real, vertices: seq<Vertex>): (res: Result<Entity, Colors.ColorError>)
    requires width != 0.0 && height != 0.0
    ensures res.Ok? <==> forall i :: 0 <= i < |vertices| ==> Convertible(vertices[i])
    ensures res.Ok? ==> |res.value.vertices| == |vertices|
    ensures res.Ok? ==> forall i :: 0 <= i < |vertices| ==>
      && res.value.vertices[i].position.x * width == vertices[i].position.x
      && res.value.vertices[i].position.y * height == vertices[i].position.y
      && res.value.vertices[i].position.z == vertices[i].position.z
  {
    match NormalizeCoordinates(vertices, width, height)
    case Err(e) => Err(e)
    case Ok(ns) => Ok(Entity(ns))
  }

  /** The geometric part of `EntityBuilder::build`: the `u32` viewport size
      converted to floating point. */
  function Build(builder: EntityBuilder, width: U32, height: U32): (res: Result<Entity, Colors.ColorError>)
    requires width > 0 && height > 0
    ensures res.Ok? <==> forall i :: 0 <= i < |builder.vertices| ==> Convertible(builder.vertices[i])
    ensures res.Ok? ==> |res.value.vertices| == |builder.vertices|
    ensures res.Ok? ==> forall i :: 0 <= i < |builder.vertices| ==>
      && res.value.vertices[i].position.x * (width as real) == builder.vertices[i].position.x
      && res.value.vertices[i].position.y * (height as real) == builder.vertices[i].position.y
      && res.value.vertices[i].position.z == builder.vertices[i].position.z
  {
    NewEntity(width as real, height as real, builder.vertices)
  }

  /** `num_vertices`: the vertex count cast to `u32`. */
  function NumVertices(e: Entity): (n: U32)
    ensures |e.vertices| < U32Modulus ==> n == |e.vertices|
  {
    AsU32(|e.vertices|)
  }

  /** Triangle-list length per shape kind. */
  function TessellatedLength(kind: ShapeKind): nat {
    match kind
    case Triangle => 3
    case Rectangle => 6
    case Circle(_) => CircleVertexCount
  }

  /** Control vertices whose colours all convert tessellate and build: the
      vertex count then depends on the shape kind alone, and is always a
      whole number of triangles. */
  lemma BuiltVertexCount(kind: ShapeKind, vertices: seq<Vertex>, trig: Trig, width: U32, height: U32)
    requires |vertices| == RequisitePoints(kind)
    requires forall i :: 0 <= i < |vertices| ==> Convertible(vertices[i])
    requires width > 0 && height > 0
    ensures FromShape(kind, vertices, trig).Ok?
    ensures var built := Build(FromShape(kind, vertices, trig).value, width, height);
      && built.Ok?
      && var n := NumVertices(built.value);
      n == TessellatedLength(kind) && n % 3 == 0 && n > 0
  {
    var out := FromShape(kind, vertices, trig).value.vertices;
    if kind.Circle? {
      var center := vertices[0];
      var rim := Colors.FromRgb(center.color).value;
      assert [center] == vertices;
      FanCentreAndRim(out, center, kind.radius, rim, trig);
      Colors.PercentagesRoundTrip(rim);
      forall j | 0 <= j < |out|
        ensures Convertible(out[j])
      {
        if j % 3 != 1 {
          assert out[j].color == Colors.InPercentages(rim);
        }
      }
    } else if kind.Rectangle? {
      forall j | 0 <= j < |out|
        ensures Convertible(out[j])
      {
        assert j == 0 || j == 1 || j == 2 || j == 3 || j == 4 || j == 5;
      }
    }
  }

  /** The two shapes `src/main.rs` puts on the home scene: a blue circle of
      radius 500 around the origin, whose list starts and ends at (500, 0, 0),
      and a white 400 by 100 rectangle button, split into (0, 1, 2) and
      (2, 3, 0). */
  lemma HomeSceneShapes(trig: Trig)
    ensures var circle := FromShape(Circle(500.0), [NewVertex(0.0, 0.0, 0.0, Colors.Blue)], trig);
      && circle.Ok?
      && |circle.value.vertices| == 1080
      && circle.value.vertices[0].position == Position(500.0, 0.0, 0.0)
      && circle.value.vertices[1079].position == Position(500.0, 0.0, 0.0)
    ensures var corners := [
        NewVertex(-200.0, 50.0, 0.0, Colors.White), NewVertex(-200.0, -50.0, 0.0, Colors.White),
        NewVertex(200.0, -50.0, 0.0, Colors.White), NewVertex(200.0, 50.0, 0.0, Colors.White)];
      var button := FromShape(Rectangle, corners, trig);
      && button.Ok?
      && button.value.vertices == [corners[0], corners[1], corners[2], corners[2], corners[3], corners[0]]
  {
    var center := NewVertex(0.0, 0.0, 0.0, Colors.Blue);
    NewVertexConvertsBack(0.0, 0.0, 0.0, Colors.Blue);
    CircleSeam(center, 500.0, trig);
  }
}

=== FILE: entity.dfy ===
/** The indexed point mesh of `src/entity.rs`: points with an index list
    that draws them in their own order. */
module PointEntities {
  import opened Prims
  import Colors
  import Entities

  /** A vertex of the indexed mesh. */
  datatype Point = Point(position: Entities.Position, color: Colors.Rgb)

  /** Points and the `u32` index list that orders them for drawing. */
  datatype Entity = Entity(points: seq<Point>, pointOrder: seq<U32>)

  /** The index list pushed for `n` points: each position cast to `u32`. */
  function IdentityOrder(n: nat): (order: seq<U32>)
    ensures |order| == n
  {
    seq(n, (i: nat) => AsU32(i))
  }

  /** `point_order_from_points`: pushes `i as u32` for every point in turn.
      While the indices fit in `u32` (at most 2^32 points) the list is the
      identity: valid, strictly increasing, hence free of duplicates. */
  method PointOrderFromPoints(points: seq<Point>) returns (order: seq<U32>)
    ensures order == IdentityOrder(|points|)
    ensures |points| <= U32Modulus ==>
      && (forall i :: 0 <= i < |order| ==> order[i] == i)
      && (forall i, j :: 0 <= i < j < |order| ==> order[i] < order[j])
  {
    order := [];
    var i := 0;
    while i < |points|
      invariant 0 <= i <= |points|
      invariant |order| == i
      invariant forall j :: 0 <= j < i ==> order[j] == AsU32(j)
    {
      order := order + [AsU32(i)];
      i := i + 1;
    }
  }

  /** `from_points`: keeps the points as given, paired with their identity order. */
  method FromPoints(points: seq<Point>) returns (e: Entity)
    ensures e.points == points
    ensures |e.pointOrder| == |points|
    ensures |points| <= U32Modulus ==> forall i :: 0 <= i < |points| ==> e.pointOrder[i] == i
  {
    var order := PointOrderFromPoints(points);
    e := Entity(points, order);
  }
}

=== FILE: prims.dfy ===
/** Rust's `Option` and `Result`, and the `u32` width the renderer uses for
    colour channels, vertex counts and point indices. */
module Prims {

  datatype Option<+T> = None | Some(value: T)

  datatype Result<+T, +E> = Ok(value: T) | Err(error: E)

  /** Number of distinct `u32` values. */
  const U32Modulus: nat := 0x1_0000_0000

  /** The values of Rust's `u32`. */
  type U32 = n: nat | n < U32Modulus

  /** Rust's `n as u32` on an unsigned integer: keeps the low 32 bits. */
  function AsU32(n: nat): (r: U32)
    ensures n < U32Modulus ==> r == n
    ensures (n - r) % U32Modulus == 0
  {
    n % U32Modulus
  }
}
